=== FILE: README.md ===
# timecode-converter in Dafny

A model of the frame-count / SMPTE timecode codec in `timecode.js`, with
proofs of what it promises. A line such as `25fps 90029` or
`30DF 01:00:07;06` names a frame rate and a value. The value is either a
frame count, which is formatted as a timecode, or a timecode, which is
parsed back to a frame count.

Two rates are supported:

- 25 fps, written `HH:MM:SS:FF`;
- 29.97 fps, tagged "30DF" and written `HH:MM:SS;FF`.

The model is pure: functions over datatypes, and lemmas about them.

- `wrappers.dfy` (module `Wrappers`): `Option`, which stands for the `-1`
  error returns of the codec and for `NaN`.
- `js_string.dfy` (module `JsString`): the JavaScript built-ins the codec
  relies on. This covers `split` with a one-character separator (and
  `join`, its inverse), `toUpperCase` on ASCII, `parseInt` with the default
  radix (decimal digits, or hexadecimal digits after a `0x` prefix),
  `Number()` on signed decimal literals, `String(n)`, and
  `("0" + n).slice(-2)`.
- `timecode.dfy` (module `Timecode`): the codec itself. It holds
  `getFrameRate`, `isCorrect`, `toTimeCode`, `toFrameCount`,
  `toFrameCount25fps`, `toFrameCount30DF` and `convert`.
- `timecode_props.dfy` (module `TimecodeProps`): the properties.
  - The fields of a formatted timecode and their bounds.
  - The 25 fps round trip in both directions, including the wrap past 100 hours.
  - The behaviour of the 25 fps parser on too few and on extra components.
  - The 29.97 fps round trip, including the wrap past 100 hours. It holds
    only up to one frame and can fail outright.
- `timecode_examples.dfy` (module `TimecodeExamples`): the worked values
  90029, 8999999, 108108, 10897308 and 539, and `parseInt` on `0x1F` and `0x`.

The rate 29.97 is modelled as the exact rational 2997/100. Every quantity
the code computes with the rate is computed in hundredths of a frame, so
`Math.floor` and `Math.round` become integer division. Concretely:

- frames = round((100 n mod 2997) / 100);
- the whole seconds are e = floor(100 n / 2997);
- seconds, minutes and hours are e mod 60, (e div 60) mod 60 and e div 3600.

For 25 fps the same formulas use 2500.

## Model

| member | source | states |
|---|---|---|
| Timecode.GetFrameRate | timecode.js:50-58 | The tag gives 25 fps exactly when it equals "25fps" ignoring ASCII case, 29.97 fps exactly when it equals "30df" ignoring case, and -1 (None) exactly when it matches neither |
| JsString.ToUpperCase | timecode.js:51-53 | `toUpperCase()` on ASCII: each lower-case letter becomes its capital, every other character stays; UpperCaseMatch states what comparing after it means |
| JsString.UpperCaseMatch | timecode.js:51-53 | Comparing `toUpperCase()` of a tag with the upper-cased constant is the same as comparing the tag with the constant character by character, ignoring case |
| Timecode.IsCorrect | timecode.js:125-145 | True exactly when the number is an integer (not NaN), at least 0, and below its bound. The bound is 25 or 30 for frames (below the rate 25 or 29.97), 100 for hours, and 60 for any other kind |
| Timecode.RoundHundredths | timecode.js:118 | `Math.round(x / 100)` for x >= 0 is the integer r with 100 r <= x + 50 < 100 r + 100, that is, halves round up |
| Timecode.FieldsOf | timecode.js:64-67 | The four fields `toTimeCode` computes: frames round(n mod rate), seconds, minutes and hours from the whole seconds floor(n / rate), in exact hundredths; Fields25, FieldBounds, FramesReachThirty and CountDFOfFields state its values and bounds |
| Timecode.Render | timecode.js:72-75 | The padded concatenation HH:MM:SS?FF with the rate's separator before the frames; RenderLayout and RenderShows state where each field and separator lies |
| Timecode.ToTimeCode | timecode.js:61-79 | The result is -1 (None) exactly when the frame number is not a non-negative integer |
| Timecode.TimeCodeLayout | timecode.js:68-75 | A timecode is 11 characters: `:` at positions 2 and 5, `;` at position 8 exactly for 29.97 fps and `:` exactly for 25 fps, and two decimal digits at 0, 3, 6 and 9 spelling hours, minutes, seconds and frames modulo 100 |
| Timecode.RenderLayout | timecode.js:72-75 | The rendered text is the four padded fields at positions 0, 3, 6 and 9, with the separators between them |
| Timecode.RenderShows | timecode.js:72-75 | Each two-character slot of the rendered text is a digit pair whose value is its field modulo 100 |
| TimecodeProps.Fields25 | timecode.js:64-67 | At 25 fps the fields of n are n div 90000, (n div 1500) mod 60, (n div 25) mod 60 and n mod 25 |
| TimecodeProps.FieldBounds | timecode.js:64-67 | Minutes and seconds are below 60, and frames are at most 30 (below 25 at 25 fps). Hours are below 100 exactly when n < 9,000,000 (25 fps) or n < 10,789,200 (29.97 fps) |
| TimecodeProps.FramesReachThirty | timecode.js:64 | At 29.97 fps frame 539 has a frames field of 30: rounding n mod 29.97 can reach the rounded rate |
| TimecodeProps.Decompose25 | timecode.js:64-67 | The 25 fps fields of f + 25 s + 1500 m + 90000 h are h, m, s, f whenever m, s < 60 and f < 25 |
| TimecodeProps.MixedRadix25 | timecode.js:64-67 | The 25 fps fields, with the hours taken modulo 100, weigh back to n mod 9,000,000 |
| TimecodeProps.Count25OfFields | timecode.js:64-67 | The 25 fps fields of n are in range, and weighed by 1, 25, 1500 and 90000 (hours mod 100) they give n mod 9,000,000 |
| TimecodeProps.PadTwoHasNo | timecode.js:72-75 | A padded field contains no separator character |
| TimecodeProps.ParsePadTwo | timecode.js:93-96 | `parseInt` reads a padded field back as the field's value modulo 100 |
| TimecodeProps.SplitFour | timecode.js:92 | Four separator-free pieces joined by a separator split back into exactly those four pieces |
| TimecodeProps.SplitRender25 | timecode.js:92 | A 25 fps timecode splits on `:` into its four padded fields |
| TimecodeProps.SplitRenderDF | timecode.js:109-110 | A 29.97 fps timecode splits on `:` into hours, minutes and "SS;FF", and on `;` into two pieces, the second being the padded frames |
| TimecodeProps.ComponentsOfPadded | timecode.js:93-96 | Components that are padded fields parse to the fields modulo 100 |
| TimecodeProps.ComponentsOfRender25 | timecode.js:92-96 | The components of a 25 fps timecode parse to hours mod 100, minutes, seconds and frames |
| TimecodeProps.Parse25Of | timecode.js:91-105 | When the first four `:` components parse to h < 100, m < 60, s < 60 and f < 25, all at least 0, the count is f + 25 s + 1500 m + 90000 h |
| TimecodeProps.Parsed25 | timecode.js:91-105 | Conversely, a timecode that parses has four components that parse to in-range values, and its count is their weighted sum |
| Timecode.Component | timecode.js:93-96 | `parseInt(timeCodeSplit[i])`, where a missing piece is `undefined` and parses to NaN (None); ComponentOfPrefix, ComponentsOfPadded and FewComponents25 state its behaviour |
| Timecode.ToFrameCount25fps | timecode.js:91-105 | A result implies at least four `:` components and a count below 9,000,000 |
| TimecodeProps.FewComponents25 | timecode.js:91-105 | Fewer than four `:` components give -1 (None) |
| TimecodeProps.ExtraComponents25 | timecode.js:92-96 | Components after the fourth are ignored: appending `:` and any text does not change the result |
| TimecodeProps.SameComponents25 | timecode.js:92-101 | The result depends only on the first four components |
| TimecodeProps.ComponentOfPrefix | timecode.js:93-96 | A component is read by position, so parts appended after it do not change it |
| TimecodeProps.ParseRender25 | timecode.js:91-105 | A 25 fps timecode of in-range fields parses to f + 25 s + 1500 m + 90000 (h mod 100) |
| TimecodeProps.ParseFields25 | timecode.js:61-105 | The rendered 25 fps fields of n parse back to n mod 9,000,000 |
| TimecodeProps.RoundTrip25 | timecode.js:61-105 | Formatting n at 25 fps always succeeds, and parsing the result gives n mod 9,000,000. For n < 9,000,000 (100 hours) it gives n |
| TimecodeProps.ParseThenFields25 | timecode.js:61-105 | A timecode that parses yields a count whose fields are exactly the four components that were read |
| TimecodeProps.ParseThenFormat25 | timecode.js:61-105 | Parse, format and parse again gives the same count |
| Timecode.ToFrameCount30DF | timecode.js:108-122 | A result implies at least two `;` components, at least three `:` components, and a count below 10,789,200; Parse30DFOf and Parsed30DF pin the result in both directions |
| TimecodeProps.ParseSecondsField | timecode.js:111 | `parseInt("SS;FF")` reads SS: the seconds of a 29.97 fps timecode come from a prefix parse |
| TimecodeProps.Parse30DFOf | timecode.js:108-122 | When hours, minutes and seconds parse in range and the frames after `;` parse to f >= 0, the result is round(f + 29.97 (s + 60 m + 3600 h)) if f < 30, and -1 (None) otherwise |
| TimecodeProps.Parsed30DF | timecode.js:108-122 | A result implies that hours parsed to 0..99, minutes and seconds to 0..59 and the frames after the first `;` to 0..29, and that the count is round(f + 29.97 (s + 60 m + 3600 h)); so any out-of-range or unparseable field gives -1 (None), the converse of Parse30DFOf |
| TimecodeProps.ComponentsOfRenderDF | timecode.js:109-113 | The components of a 29.97 fps timecode parse to its fields modulo 100, the frames taken from after the `;` |
| TimecodeProps.ParseRenderDF | timecode.js:108-122 | A 29.97 fps timecode of in-range fields parses to the rounded weighted sum, or to -1 (None) when its frames field is 30 |
| TimecodeProps.RoundRemainder | timecode.js:118 | With 100 n = 2997 e + rho, rounding rho to frames and weighing back gives n or n + 1, and n + 1 exactly when rho mod 100 = 50 |
| TimecodeProps.CountDFOfFields | timecode.js:64-67 | The 29.97 fps fields of n < 10,789,200 are in range, and weighed back they give n, or n + 1 exactly when (100 n mod 2997) mod 100 = 50 |
| TimecodeProps.RoundTripBelowDF | timecode.js:61-122 | Below 10,789,200 frames, format then parse at 29.97 fps gives -1 (None) exactly when the frames field is 30. Otherwise it gives n, or n + 1 exactly when (100 n mod 2997) mod 100 = 50 |
| TimecodeProps.FieldsWrapDF | timecode.js:64-67 | Adding k times 10,789,200 frames (100 hours at 29.97 fps) raises the hours field by 100 k and leaves minutes, seconds, frames and the remainder in hundredths unchanged |
| TimecodeProps.PadTwoWrap | timecode.js:72-75 | `("0" + h).slice(-2)` is the same for h and h + 100 k |
| TimecodeProps.TimeCodeWrapDF | timecode.js:61-79 | The 29.97 fps timecode of n is the timecode of n mod 10,789,200, with the same frames field and the same remainder in hundredths |
| TimecodeProps.RoundTripDF | timecode.js:61-122 | For every n, formatting at 29.97 fps succeeds, and parsing the text gives -1 (None) exactly when the frames field is 30. Otherwise it gives m = n mod 10,789,200, or m + 1 exactly when (100 n mod 2997) mod 100 = 50 |
| TimecodeProps.NoSemicolonDF | timecode.js:110 | A 29.97 fps timecode without `;` has no frames component and gives -1 (None) |
| Timecode.ToFrameCount | timecode.js:82-88 | Dispatch on the rate. A count is below 9,000,000 at 25 fps and below 10,789,200 at 29.97 fps |
| Timecode.Convert | timecode.js:32-47 | The value is formatted exactly when `Number(value)` is a non-negative integer; a digit string short enough to be a finite double (see ToNumber under Left out) is formatted and never parsed. A frame count comes only from a successful `toFrameCount` when formatting failed. "WrongInput" is returned exactly when both fail. A formatted value's text is `toTimeCode(rate, Number(value))`, signed values included |
| TimecodeExamples.Example90029 | timecode.js:61-105 | Frame 90029 at 25 fps is "01:00:01:04", which parses back to 90029 |
| TimecodeExamples.Example8999999 | timecode.js:61-105 | Frame 8999999 at 25 fps is "99:59:59:24", which parses back to 8999999 |
| TimecodeExamples.Example108108 | timecode.js:61-122 | Frame 108108 at 29.97 fps is "01:00:07;06", which parses back to 108108 |
| TimecodeExamples.Example10897308 | timecode.js:61-122 | Frame 10,897,308 at 29.97 fps is 100 hours past 108108: it prints as "01:00:07;06" and parses back to 108108 |
| TimecodeExamples.ExampleHex | timecode.js:93 | `parseInt("0x1F")` is 31 and `parseInt("0x")` is NaN (None) |
| TimecodeExamples.Example539 | timecode.js:61-122 | Frame 539 at 29.97 fps is "00:00:17;30", which the parser refuses |
| JsString.SplitHead | timecode.js:33-35 | The first piece of `split` is the longest separator-free prefix, a separator follows it when there are more pieces, and the rest splits into the remaining pieces |
| Timecode.RateTag | timecode.js:33-35 | `input.split(" ")[0]`: the text before the first space, or the whole line without one |
| Timecode.ValueToken | timecode.js:33-35 | `input.split(" ")[1]`: the longest space-free text after the first space |
| Timecode.Separator | timecode.js:68-71 | The separator before the frames is `;` exactly at 29.97 fps and `:` exactly at 25 fps |
| JsString.Split | timecode.js:92 | `split` on a one-character separator: at least one piece, the text between separators in order; SplitPieces, JoinSplit and SplitJoin state that the pieces are separator-free and that `join` inverts it |
| JsString.SplitPieces | timecode.js:92 | No piece of `split` contains the separator, and there are two or more pieces exactly when the separator occurs |
| JsString.JoinSplit | timecode.js:92 | Joining the pieces of `split` with the separator gives the string back |
| JsString.SplitJoin | timecode.js:92 | Splitting the join of separator-free pieces gives the pieces back |
| JsString.SplitAround | timecode.js:92 | Splitting a + sep + b is splitting a followed by splitting b |
| JsString.JoinAppend | timecode.js:92 | Joining two lists of pieces puts one separator between their joins |
| JsString.SplitAfterPiece | timecode.js:92 | A separator-free prefix before the first separator is the first piece |
| JsString.SplitWhole | timecode.js:92 | A separator-free string splits into itself alone |
| JsString.NatToDecimal | timecode.js:72-75 | `String(n)` is a non-empty digit string whose value is n, with no leading zero: a leading `0` only in the one-character spelling of 0 |
| JsString.PadTwo | timecode.js:72-75 | `("0" + n).slice(-2)` is two decimal digits whose value is n mod 100 |
| JsString.PadTwoIsSlice | timecode.js:72-75 | PadTwo(n) is the last two characters of "0" followed by the decimal spelling of n |
| JsString.TrimStartSpec | timecode.js:93 | The white space `parseInt` skips is a prefix of white space characters, and what remains does not start with one |
| JsString.DigitPrefixSpec | timecode.js:93 | The digits `parseInt` reads are the longest prefix made of decimal digits |
| JsString.ParseInt | timecode.js:93-96 | `parseInt` with the default radix: white space, an optional sign, then either `0x`/`0X` and the longest hexadecimal digit run, or the longest decimal digit run; NaN (None) when the run is empty. ParseIntMagnitude, ParseIntOf, ParseIntHex and ParseIntNoDigits state the outcomes |
| JsString.TrimSpaces | timecode.js:93 | White space in front of a non-space character is exactly what `parseInt` skips |
| JsString.ParseIntMagnitude | timecode.js:93 | After white space and at most one sign, `parseInt` reads what the unsigned reader reads, negated after `-`, and is NaN exactly when that is |
| JsString.HexPrefixOf | timecode.js:93 | The hexadecimal digits read are the longest prefix of hexadecimal digits |
| JsString.DigitPrefixOf | timecode.js:93 | The decimal digits read are the longest prefix of decimal digits |
| JsString.MagnitudeDecimal | timecode.js:93 | Without a `0x`/`0X` lead, the unsigned reader reads a non-empty decimal run as its value |
| JsString.MagnitudeHex | timecode.js:93 | After `0x` or `0X` the unsigned reader reads the hexadecimal run as its base-16 value, and is NaN exactly when the run is empty |
| JsString.ParseIntOf | timecode.js:93-96 | `parseInt` of white space, an optional sign, a non-empty decimal run and a tail that does not start with a digit is the run's value, negated after `-`; a lone `0` followed by `x` or `X` is the hexadecimal case instead |
| JsString.ParseIntHex | timecode.js:93-96 | `parseInt` of white space, an optional sign, `0x` or `0X`, a hexadecimal run and a tail that does not start with a hexadecimal digit is the run's base-16 value, negated after `-`, and NaN exactly when the run is empty |
| JsString.ParseIntNoDigits | timecode.js:93-96 | `parseInt` of white space and an optional sign followed by no digit is `NaN` (None) |
| JsString.ParseIntPrefix | timecode.js:111 | `parseInt` of digits followed by text that does not start with a digit reads the digits, unless they are a lone `0` before `x` or `X` (ParseIntHex) |
| JsString.ParseIntDigits | timecode.js:93-96 | `parseInt` of a non-empty digit string is its value |
| JsString.ToNumber | timecode.js:36 | `Number()` gives a number exactly for a digit string or a sign followed by digits; a digit string gives its value, and a signed one the digits' value, negated after `-` |
| JsString.ToNumberDecimal | timecode.js:36 | `Number(String(n))` is n |

## Left out

- `readTextFile` (timecode.js:12-29) is left out. It reads a file with a synchronous request, loops over its lines and writes each result to the page, which is I/O.
- IEEE-754 arithmetic is left out. The rate 29.97 is the exact rational 2997/100. JavaScript doubles may differ from it in `frameNumber % 29.97` and at exact .5 ties in the parser's `Math.round`. RoundTripDF states the exact-arithmetic result, including its n + 1 at ties, which doubles may not reproduce.
- Convert requires that the rate tag resolves. The source does not check the -1 from `getFrameRate`. An integer value is then formatted with rate -1, and any other value makes `toFrameCount` return `undefined`. Neither behaviour is modelled.
- Timecode.Convert formats every digit string, so its clause on digit strings does not hold in the source for 310 or more digits, which `Number()` turns into `Infinity` (see JsString.ToNumber).
- Convert requires a space in the line. Without one, the value is `undefined` and `split` throws.
- JsString.ToNumber models only `Number()` on an optional sign followed by decimal digits. Surrounding white space, the empty string (which is 0), decimal points and exponents, hexadecimal, and `Infinity` are not modelled. So a value such as "1e3" or "7.0" is not formatted as the source would format it. A digit string of 310 or more digits is `Infinity` in JavaScript, so the source parses it as a timecode and answers "WrongInput", while the model formats the exact integer.
- Timecode.GetFrameRate models `toUpperCase` on ASCII letters only. Non-ASCII characters whose upper case is an ASCII letter, such as U+017F, are not modelled.
- Timecode.IsCorrect takes the field kind as an enumeration of the four literals the callers pass, not as an arbitrary string. The source treats every string other than "frames" and "hours" like "seconds" and "minutes".
- Timecode.ToTimeCode takes the frame number as an optional integer. A non-integral or NaN number is None. Precision loss and exponent notation for very large doubles are not modelled.
- The frame-rate argument of the formatting and parsing functions is the datatype `Rate`. The source's numeric 25 and 29.97, and any other number passed to them, are not modelled.
- Hours are printed modulo 100, because `slice(-2)` keeps the last two characters. Wider hours are not printed in full. The model follows the code here, so beyond 100 hours the 25 fps round trip returns n mod 9,000,000 and the 29.97 fps round trip n mod 10,789,200 (or one more).

=== FILE: js_string.dfy ===
/**
  The JavaScript string and number built-ins the codec relies on, restricted to
  the behaviour it exercises: String.prototype.split with a one-character
  separator, toUpperCase on ASCII letters, parseInt with the default radix
  (decimal digits, or hexadecimal digits after a 0x prefix), Number() on
  decimal integer literals, String(n) for a non-negative integer and
  slice(-2).
*/
module JsString {
  import opened Wrappers

  predicate IsDigit(c: char) { '0' <= c <= '9' }

  predicate IsDigits(s: string) { forall i :: 0 <= i < |s| ==> IsDigit(s[i]) }

  function DigitValue(c: char): (d: nat)
    requires IsDigit(c)
    ensures d < 10
  {
    c as int - '0' as int
  }

  function DigitChar(d: nat): (c: char)
    requires d < 10
    ensures IsDigit(c) && DigitValue(c) == d
  {
    ('0' as int + d) as char
  }

  /** The value of a string of decimal digits, most significant first ("" is 0). */
  function DigitsValue(s: string): nat
    requires IsDigits(s)
  {
    if |s| == 0 then 0 else 10 * DigitsValue(s[..|s| - 1]) + DigitValue(s[|s| - 1])
  }

  // ---------------------------------------------------------------- split / join

  /** Array.prototype.join: the parts with `sep` between consecutive ones. */
  function Join(parts: seq<string>, sep: char): string
    requires |parts| >= 1
    decreases |parts|
  {
    if |parts| == 1 then parts[0] else parts[0] + [sep] + Join(parts[1..], sep)
  }

  /**
    String.prototype.split with a one-character separator: the maximal
    separator-free pieces, in order. The empty string splits into one empty
    piece, and there is one piece more than there are separators.
  */
  function Split(s: string, sep: char): (parts: seq<string>)
    ensures |parts| >= 1
    decreases |s|
  {
    if |s| == 0 then [""]
    else if s[0] == sep then [""] + Split(s[1..], sep)
    else
      var rest := Split(s[1..], sep);
      [[s[0]] + rest[0]] + rest[1..]
  }

  /** No piece holds the separator, and there are several pieces exactly when the separator occurs. */
  lemma {:induction false} SplitPieces(s: string, sep: char)
    ensures forall i :: 0 <= i < |Split(s, sep)| ==> sep !in Split(s, sep)[i]
    ensures sep in s <==> |Split(s, sep)| >= 2
    decreases |s|
  {
    if |s| > 0 {
      SplitPieces(s[1..], sep);
      var r := Split(s[1..], sep);
      assert sep in s <==> s[0] == sep || sep in s[1..] by {
        assert s == [s[0]] + s[1..];
      }
      if s[0] != sep {
        assert sep !in [s[0]] + r[0];
        var p := [[s[0]] + r[0]] + r[1..];
        assert forall i :: 1 <= i < |p| ==> p[i] == r[i];
      } else {
        var p := [""] + r;
        assert forall i :: 1 <= i < |p| ==> p[i] == r[i - 1];
      }
    }
  }

  /** Joining the pieces of a split gives back the string: split loses nothing. */
  lemma {:induction false} JoinSplit(s: string, sep: char)
    ensures Join(Split(s, sep), sep) == s
    decreases |s|
  {
    if |s| > 0 {
      JoinSplit(s[1..], sep);
      assert s == [s[0]] + s[1..];
      if s[0] != sep {
        JoinConsHead(s[0], Split(s[1..], sep), sep);
      } else {
        var p := [""] + Split(s[1..], sep);
        assert p[1..] == Split(s[1..], sep);
      }
    }
  }

  lemma JoinConsHead(c: char, parts: seq<string>, sep: char)
    requires |parts| >= 1
    ensures Join([[c] + parts[0]] + parts[1..], sep) == [c] + Join(parts, sep)
  {
    var p := [[c] + parts[0]] + parts[1..];
    assert p[1..] == parts[1..];
  }

  /** How split treats the first character of a non-empty string. */
  lemma SplitFirst(s: string, sep: char)
    requires |s| > 0
    ensures s[0] == sep ==> Split(s, sep) == [""] + Split(s[1..], sep)
    ensures s[0] != sep ==> Split(s, sep) == [[s[0]] + Split(s[1..], sep)[0]] + Split(s[1..], sep)[1..]
  {
  }

  /**
    The first piece of a split is the longest separator-free prefix; when
    there are more pieces, a separator follows it and the rest of the string
    splits into the remaining pieces.
  */
  lemma {:induction false} SplitHead(s: string, sep: char)
    ensures var p := Split(s, sep);
            && sep !in p[0] && p[0] <= s
            && (|p[0]| < |s| <==> |p| >= 2)
            && (|p| >= 2 ==> s[|p[0]|] == sep && Split(s[|p[0]| + 1..], sep) == p[1..])
    decreases |s|
  {
    if |s| > 0 && s[0] != sep {
      SplitHead(s[1..], sep);
      var r := Split(s[1..], sep);
      assert s == [s[0]] + s[1..];
      var p := [[s[0]] + r[0]] + r[1..];
      assert p[0] == [s[0]] + r[0];
      if |p| >= 2 {
        assert s[|p[0]| + 1..] == s[1..][|r[0]| + 1..];
        assert p[1..] == r[1..];
      }
    }
  }

  /** A separator-free string splits into itself alone. */
  lemma SplitWhole(a: string, sep: char)
    requires sep !in a
    ensures |Split(a, sep)| == 1 && Split(a, sep)[0] == a
  {
    SplitPieces(a, sep);
    JoinSplit(a, sep);
  }

  /** Joining two lists of parts puts one separator between their joins. */
  lemma {:induction false} JoinAppend(p: seq<string>, q: seq<string>, sep: char)
    requires |p| >= 1 && |q| >= 1
    ensures Join(p + q, sep) == Join(p, sep) + [sep] + Join(q, sep)
    decreases |p|
  {
    assert (p + q)[0] == p[0];
    if |p| == 1 {
      assert (p + q)[1..] == q;
    } else {
      assert (p + q)[1..] == p[1..] + q;
      JoinAppend(p[1..], q, sep);
      var x, y := Join(p[1..], sep), Join(q, sep);
      assert p[0] + [sep] + (x + [sep] + y) == (p[0] + [sep] + x) + [sep] + y;
    }
  }

  /** Splitting around one separator splits each side independently. */
  lemma SplitAround(a: string, b: string, sep: char)
    ensures Split(a + [sep] + b, sep) == Split(a, sep) + Split(b, sep)
  {
    var p, q := Split(a, sep), Split(b, sep);
    JoinSplit(a, sep);
    JoinSplit(b, sep);
    JoinAppend(p, q, sep);
    SplitPieces(a, sep);
    SplitPieces(b, sep);
    assert forall i :: 0 <= i < |p + q| ==> sep !in (p + q)[i] by {
      forall i | 0 <= i < |p + q|
        ensures sep !in (p + q)[i]
      {
        if i >= |p| {
          assert (p + q)[i] == q[i - |p|];
        }
      }
    }
    SplitJoin(p + q, sep);
  }

  /** A separator-free text before the first separator is the first piece. */
  lemma {:induction false} SplitAfterPiece(a: string, b: string, sep: char)
    requires sep !in a
    ensures Split(a + [sep] + b, sep) == [a] + Split(b, sep)
    decreases |a|
  {
    var s := a + [sep] + b;
    SplitFirst(s, sep);
    if |a| == 0 {
      assert s[0] == sep && s[1..] == b;
    } else {
      assert s[0] == a[0] && s[1..] == a[1..] + [sep] + b;
      SplitAfterPiece(a[1..], b, sep);
      var r := Split(s[1..], sep);
      assert r[0] == a[1..] && r[1..] == Split(b, sep);
      assert [a[0]] + a[1..] == a;
    }
  }

  /** Split is the inverse of Join on separator-free pieces. */
  lemma {:induction false} SplitJoin(parts: seq<string>, sep: char)
    requires |parts| >= 1
    requires forall i :: 0 <= i < |parts| ==> sep !in parts[i]
    ensures Split(Join(parts, sep), sep) == parts
    decreases |parts|
  {
    JoinSplit(parts[0], sep);
    SplitPieces(parts[0], sep);
    if |parts| == 1 {
      var r := Split(parts[0], sep);
      assert |r| == 1;
      assert Join(r, sep) == r[0];
    } else {
      SplitJoin(parts[1..], sep);
      SplitAfterPiece(parts[0], Join(parts[1..], sep), sep);
      assert [parts[0]] + parts[1..] == parts;
    }
  }

  // ---------------------------------------------------------------- case

  function UpperChar(c: char): char
  {
    if 'a' <= c <= 'z' then (c as int - 32) as char else c
  }

  /** String.prototype.toUpperCase on the ASCII letters. */
  function ToUpperCase(s: string): string
  {
    seq(|s|, i requires 0 <= i < |s| => UpperChar(s[i]))
  }

  /**
    `t` spells `lower` (made of lower-case ASCII letters and digits) with each
    letter in either case.
  */
  predicate EqualsIgnoringCase(t: string, lower: string)
  {
    |t| == |lower| && forall i :: 0 <= i < |t| ==> t[i] == lower[i] || t[i] == UpperChar(lower[i])
  }

  predicate IsLowerOrDigit(s: string)
  {
    forall i :: 0 <= i < |s| ==> 'a' <= s[i] <= 'z' || IsDigit(s[i])
  }

  /** Comparing upper-cased text with an upper-case literal is matching it in either case. */
  lemma UpperCaseMatch(t: string, lower: string)
    requires IsLowerOrDigit(lower)
    ensures ToUpperCase(t) == ToUpperCase(lower) <==> EqualsIgnoringCase(t, lower)
  {
    if |t| == |lower| {
      if ToUpperCase(t) == ToUpperCase(lower) {
        forall i | 0 <= i < |t| ensures t[i] == lower[i] || t[i] == UpperChar(lower[i]) {
          assert ToUpperCase(t)[i] == ToUpperCase(lower)[i];
        }
      }
      if EqualsIgnoringCase(t, lower) {
        forall i | 0 <= i < |t| ensures ToUpperCase(t)[i] == ToUpperCase(lower)[i] {
        }
      }
    } else {
      assert |ToUpperCase(t)| != |ToUpperCase(lower)|;
    }
  }

  // ---------------------------------------------------------------- numbers

  /** String(n) for a non-negative integer: its shortest decimal spelling. */
  function NatToDecimal(n: nat): (s: string)
    ensures |s| >= 1 && IsDigits(s) && DigitsValue(s) == n
    ensures s[0] == '0' ==> n == 0 && |s| == 1
  {
    if n < 10 then [DigitChar(n)]
    else
      var s := NatToDecimal(n / 10) + [DigitChar(n % 10)];
      assert s[..|s| - 1] == NatToDecimal(n / 10);
      s
  }

  /** A leading zero does not change the value of a digit string. */
  lemma {:induction false} LeadingZero(s: string)
    requires IsDigits(s)
    ensures IsDigits("0" + s) && DigitsValue("0" + s) == DigitsValue(s)
    decreases |s|
  {
    if |s| > 0 {
      var t := "0" + s;
      assert t[..|t| - 1] == "0" + s[..|s| - 1];
      LeadingZero(s[..|s| - 1]);
    }
  }

  /** The value of a digit string splits at its last two digits. */
  lemma LastTwoDigits(t: string)
    requires IsDigits(t) && |t| >= 2
    ensures DigitsValue(t) == 100 * DigitsValue(t[..|t| - 2]) + DigitsValue(t[|t| - 2..])
  {
    var u := t[..|t| - 1];
    assert u[..|u| - 1] == t[..|t| - 2];
    var v := t[|t| - 2..];
    assert v[..1] == [t[|t| - 2]];
    assert DigitsValue(v[..1]) == DigitValue(t[|t| - 2]) by {
      assert v[..1][..0] == [];
    }
  }

  lemma TwoDigitsBelow100(v: string)
    requires |v| == 2 && IsDigits(v)
    ensures DigitsValue(v) == 10 * DigitValue(v[0]) + DigitValue(v[1]) < 100
  {
    var w := v[..1];
    assert w[..0] == [] && w[0] == v[0];
    assert DigitsValue(w) == DigitValue(v[0]);
  }

  /**
    ("0" + n).slice(-2): n modulo 100 on two digits, the tens digit first.
    PadTwoIsSlice shows that this is the last two characters of n's decimal
    spelling after a zero is put in front.
  */
  function PadTwo(n: nat): (s: string)
    ensures |s| == 2 && IsDigits(s) && DigitsValue(s) == n % 100
  {
    var s := [DigitChar(n / 10 % 10), DigitChar(n % 10)];
    TwoDigitsBelow100(s);
    TensAndUnits(n);
    s
  }

  lemma TensAndUnits(n: nat)
    ensures 10 * (n / 10 % 10) + n % 10 == n % 100
  {
    var q := n / 10;
    assert n == 10 * q + n % 10;
    assert q == 10 * (q / 10) + q % 10;
    assert n == 100 * (q / 10) + (10 * (q % 10) + n % 10);
    HundredsSplit(n, q / 10, 10 * (q % 10) + n % 10);
  }

  /** Two digit strings of length two with the same value are equal. */
  lemma TwoDigitsEqual(v: string, w: string)
    requires |v| == 2 && IsDigits(v) && |w| == 2 && IsDigits(w)
    requires DigitsValue(v) == DigitsValue(w)
    ensures v == w
  {
    TwoDigitsBelow100(v);
    TwoDigitsBelow100(w);
    assert v[0] == w[0] && v[1] == w[1];
  }

  /** PadTwo(n) is the last two characters of "0" followed by String(n). */
  lemma PadTwoIsSlice(n: nat)
    ensures var t := "0" + NatToDecimal(n);
            |t| >= 2 && PadTwo(n) == t[|t| - 2..]
  {
    LastTwoOfZeroPrefixed(n);
    var t := "0" + NatToDecimal(n);
    TwoDigitsEqual(PadTwo(n), t[|t| - 2..]);
  }

  lemma LastTwoOfZeroPrefixed(n: nat)
    ensures var t := "0" + NatToDecimal(n);
            |t| >= 2 && IsDigits(t[|t| - 2..]) && DigitsValue(t[|t| - 2..]) == n % 100
  {
    var t := "0" + NatToDecimal(n);
    var v := t[|t| - 2..];
    assert DigitsValue(t) == n by {
      LeadingZero(NatToDecimal(n));
    }
    assert DigitsValue(t) == 100 * DigitsValue(t[..|t| - 2]) + DigitsValue(v) by {
      LastTwoDigits(t);
    }
    assert DigitsValue(v) < 100 by {
      TwoDigitsBelow100(v);
    }
    HundredsSplit(DigitsValue(t), DigitsValue(t[..|t| - 2]), DigitsValue(v));
  }

  /** The remainder modulo 100 of 100 q + r, for r below 100, is r. */
  lemma HundredsSplit(n: nat, q: nat, r: nat)
    requires r < 100 && n == 100 * q + r
    ensures n % 100 == r
  {
  }

  /**
    The white space and line terminators parseInt skips: TAB, VT, FF, SP,
    NBSP, ZWNBSP, the other space separators of Unicode 15, LF, CR, LS, PS.
  */
  predicate IsJsSpace(c: char)
  {
    c == '\t' || c == '\U{000B}' || c == '\U{000C}' || c == ' ' || c == '\U{00A0}'
    || c == '\U{FEFF}' || c == '\U{1680}' || ('\U{2000}' <= c <= '\U{200A}')
    || c == '\U{202F}' || c == '\U{205F}' || c == '\U{3000}'
    || c == '\n' || c == '\r' || c == '\U{2028}' || c == '\U{2029}'
  }

  /** The string without its leading white space. */
  function TrimStart(s: string): string
  {
    if |s| > 0 && IsJsSpace(s[0]) then TrimStart(s[1..]) else s
  }

  /** TrimStart drops exactly the leading run of white space. */
  lemma {:induction false} TrimStartSpec(s: string)
    ensures var t := TrimStart(s);
            && |t| <= |s| && t == s[|s| - |t|..]
            && (|t| == 0 || !IsJsSpace(t[0]))
            && forall i :: 0 <= i < |s| - |t| ==> IsJsSpace(s[i])
  {
    if |s| > 0 && IsJsSpace(s[0]) {
      TrimStartSpec(s[1..]);
    }
  }

  /** The longest prefix of `s` made of decimal digits. */
  function DigitPrefix(s: string): (d: string)
    ensures IsDigits(d)
  {
    if |s| > 0 && IsDigit(s[0]) then [s[0]] + DigitPrefix(s[1..]) else ""
  }

  /** DigitPrefix is a prefix, and the longest one made of digits. */
  lemma {:induction false} DigitPrefixSpec(s: string)
    ensures var d := DigitPrefix(s);
            d <= s && (|d| == |s| || !IsDigit(s[|d|]))
  {
    if |s| > 0 && IsDigit(s[0]) {
      DigitPrefixSpec(s[1..]);
    }
  }

  predicate IsHexDigit(c: char) { IsDigit(c) || 'a' <= c <= 'f' || 'A' <= c <= 'F' }

  predicate IsHexDigits(s: string) { forall i :: 0 <= i < |s| ==> IsHexDigit(s[i]) }

  function HexDigitValue(c: char): (d: nat)
    requires IsHexDigit(c)
    ensures d < 16
  {
    if IsDigit(c) then DigitValue(c)
    else if 'a' <= c <= 'f' then c as int - 'a' as int + 10
    else c as int - 'A' as int + 10
  }

  /** The value of a string of hexadecimal digits, most significant first. */
  function HexValue(s: string): nat
    requires IsHexDigits(s)
  {
    if |s| == 0 then 0 else 16 * HexValue(s[..|s| - 1]) + HexDigitValue(s[|s| - 1])
  }

  /** The longest prefix of `s` made of hexadecimal digits. */
  function HexPrefix(s: string): (h: string)
    ensures IsHexDigits(h)
  {
    if |s| > 0 && IsHexDigit(s[0]) then [s[0]] + HexPrefix(s[1..]) else ""
  }

  /** `u` starts with the hexadecimal prefix "0x" or "0X". */
  predicate HexLead(u: string)
  {
    |u| >= 2 && u[0] == '0' && (u[1] == 'x' || u[1] == 'X')
  }

  /**
    The unsigned part of parseInt with the default radix: after a "0x" or
    "0X" prefix the longest run of hexadecimal digits, otherwise the
    longest run of decimal digits; NaN (None) when that run is empty.
  */
  function ParseMagnitude(u: string): Option<nat>
  {
    if HexLead(u) then
      var h := HexPrefix(u[2..]);
      if |h| == 0 then None else Some(HexValue(h))
    else
      var d := DigitPrefix(u);
      if |d| == 0 then None else Some(DigitsValue(d))
  }

  /**
    parseInt(s) with the default radix: skip leading white space, read an
    optional sign, then the magnitude (hexadecimal after 0x, decimal
    otherwise); NaN (None) when no digit is read. Whatever follows the
    digits is ignored.
  */
  function ParseInt(s: string): (r: Option<int>)
  {
    var t := TrimStart(s);
    var negative := |t| > 0 && t[0] == '-';
    var u := if |t| > 0 && (t[0] == '+' || t[0] == '-') then t[1..] else t;
    match ParseMagnitude(u)
    case None => None
    case Some(m) =>
      var magnitude: int := m;
      Some(if negative then -magnitude else magnitude)
  }

  /** Leading white space followed by a non-space is trimmed to the rest. */
  lemma {:induction false} TrimSpaces(ws: string, rest: string)
    requires forall i :: 0 <= i < |ws| ==> IsJsSpace(ws[i])
    requires |rest| == 0 || !IsJsSpace(rest[0])
    ensures TrimStart(ws + rest) == rest
    decreases |ws|
  {
    if |ws| > 0 {
      assert (ws + rest)[0] == ws[0];
      assert (ws + rest)[1..] == ws[1..] + rest;
      TrimSpaces(ws[1..], rest);
    } else {
      assert ws + rest == rest;
    }
  }

  /**
    parseInt on white space, an optional sign and the text `u` after them
    reads u's magnitude, negated after '-'. Without a sign, `u` must start
    with neither a sign nor white space, so that `ws` and `sign` are the
    whole prefix that parseInt skips.
  */
  lemma ParseIntMagnitude(ws: string, sign: string, u: string)
    requires forall i :: 0 <= i < |ws| ==> IsJsSpace(ws[i])
    requires sign == "" || sign == "+" || sign == "-"
    requires sign != "" || |u| == 0 || (!IsJsSpace(u[0]) && u[0] != '+' && u[0] != '-')
    ensures var r, m := ParseInt(ws + sign + u), ParseMagnitude(u);
            && (r.Some? <==> m.Some?)
            && (m.Some? ==> r.value == if sign == "-" then -(m.value as int) else m.value as int)
  {
    var t := sign + u;
    assert ws + sign + u == ws + t;
    if sign == "" {
      assert t == u;
    } else {
      assert t[0] == sign[0] && t[1..] == u;
    }
    TrimSpaces(ws, t);
  }

  lemma {:induction false} DigitPrefixOf(d: string, rest: string)
    requires IsDigits(d)
    requires |rest| == 0 || !IsDigit(rest[0])
    ensures DigitPrefix(d + rest) == d
    decreases |d|
  {
    if |d| > 0 {
      assert (d + rest)[1..] == d[1..] + rest;
      DigitPrefixOf(d[1..], rest);
    } else {
      assert d + rest == rest;
    }
  }

  lemma {:induction false} HexPrefixOf(h: string, rest: string)
    requires IsHexDigits(h)
    requires |rest| == 0 || !IsHexDigit(rest[0])
    ensures HexPrefix(h + rest) == h
    decreases |h|
  {
    if |h| > 0 {
      assert (h + rest)[1..] == h[1..] + rest;
      HexPrefixOf(h[1..], rest);
    } else {
      assert h + rest == rest;
    }
  }

  /**
    Decimal digits followed by a tail that does not start with a digit, and
    not the "0x" prefix: the magnitude is the digits' value.
  */
  lemma MagnitudeDecimal(d: string, rest: string)
    requires |d| >= 1 && IsDigits(d)
    requires |rest| == 0 || !IsDigit(rest[0])
    requires |d| > 1 || d[0] != '0' || |rest| == 0 || (rest[0] != 'x' && rest[0] != 'X')
    ensures ParseMagnitude(d + rest) == Some(DigitsValue(d))
  {
    var u := d + rest;
    assert u[0] == d[0];
    assert !HexLead(u) by {
      if |d| > 1 {
        assert u[1] == d[1];
      } else if |rest| > 0 {
        assert u[1] == rest[0];
      }
    }
    DigitPrefixOf(d, rest);
  }

  /**
    "0x" (or "0X"), hexadecimal digits and a tail that does not start with
    one: the magnitude is the digits' value, NaN when there are none.
  */
  lemma MagnitudeHex(x: char, h: string, rest: string)
    requires x == 'x' || x == 'X'
    requires IsHexDigits(h)
    requires |rest| == 0 || !IsHexDigit(rest[0])
    ensures var m := ParseMagnitude(['0', x] + h + rest);
            (m.Some? <==> |h| > 0) && (m.Some? ==> m.value == HexValue(h))
  {
    var w := h + rest;
    var u := ['0', x] + w;
    assert HexLead(u) && HexPrefix(u[2..]) == h by {
      DropPair(x, w);
      HexPrefixOf(h, rest);
    }
    assert ['0', x] + h + rest == u;
  }

  lemma DropPair(x: char, w: string)
    ensures var u := ['0', x] + w; |u| >= 2 && u[0] == '0' && u[1] == x && u[2..] == w
  {
  }

  /**
    parseInt on white space, an optional sign, a non-empty run of decimal
    digits that is not the "0" of a "0x" prefix, and a tail that does not
    start with a digit: the value of the digits, negated after '-'.
  */
  lemma ParseIntOf(ws: string, sign: string, d: string, rest: string)
    requires forall i :: 0 <= i < |ws| ==> IsJsSpace(ws[i])
    requires sign == "" || sign == "+" || sign == "-"
    requires |d| >= 1 && IsDigits(d)
    requires |rest| == 0 || !IsDigit(rest[0])
    requires |d| > 1 || d[0] != '0' || |rest| == 0 || (rest[0] != 'x' && rest[0] != 'X')
    ensures var r, v := ParseInt(ws + sign + d + rest), DigitsValue(d) as int;
            r.Some? && r.value == if sign == "-" then -v else v
  {
    var u := d + rest;
    assert ws + sign + d + rest == ws + sign + u;
    assert u[0] == d[0];
    MagnitudeDecimal(d, rest);
    ParseIntMagnitude(ws, sign, u);
  }

  /**
    parseInt on white space, an optional sign, "0x" (or "0X"), hexadecimal
    digits and a tail that does not start with one: the value of the hex
    digits, negated after '-'; NaN when there are no hex digits.
  */
  lemma ParseIntHex(ws: string, sign: string, x: char, h: string, rest: string)
    requires forall i :: 0 <= i < |ws| ==> IsJsSpace(ws[i])
    requires sign == "" || sign == "+" || sign == "-"
    requires x == 'x' || x == 'X'
    requires IsHexDigits(h)
    requires |rest| == 0 || !IsHexDigit(rest[0])
    ensures var r, v := ParseInt(ws + sign + ['0', x] + h + rest), HexValue(h) as int;
            && (r.Some? <==> |h| > 0)
            && (r.Some? ==> r.value == if sign == "-" then -v else v)
  {
    var u := ['0', x] + h + rest;
    assert ws + sign + ['0', x] + h + rest == ws + sign + u;
    assert u[0] == '0';
    MagnitudeHex(x, h, rest);
    ParseIntMagnitude(ws, sign, u);
  }

  /**
    parseInt on white space and an optional sign followed by no digit is
    NaN. Without a sign, the text after the white space must start with
    neither a sign nor white space, so that `ws` and `sign` are the
    whole prefix that parseInt skips.
  */
  lemma ParseIntNoDigits(ws: string, sign: string, rest: string)
    requires forall i :: 0 <= i < |ws| ==> IsJsSpace(ws[i])
    requires sign == "" || sign == "+" || sign == "-"
    requires |rest| == 0
             || (!IsDigit(rest[0]) && (sign != "" || (!IsJsSpace(rest[0]) && rest[0] != '+' && rest[0] != '-')))
    ensures ParseInt(ws + sign + rest).None?
  {
    assert ParseMagnitude(rest).None? by {
      assert !HexLead(rest);
    }
    ParseIntMagnitude(ws, sign, rest);
  }

  lemma NoPrefix(u: string)
    ensures "" + "" + u == u
  {
  }

  lemma SomeOf(r: Option<int>, v: int)
    requires r.Some? && r.value == v
    ensures r == Some(v)
  {
  }

  /**
    parseInt reads the leading decimal digits and ignores a tail that does
    not start with a digit, unless they are the "0" of a "0x" prefix.
  */
  lemma ParseIntPrefix(d: string, rest: string)
    requires |d| >= 1 && IsDigits(d)
    requires |rest| == 0 || !IsDigit(rest[0])
    requires |d| > 1 || d[0] != '0' || |rest| == 0 || (rest[0] != 'x' && rest[0] != 'X')
    ensures ParseInt(d + rest) == Some(DigitsValue(d))
  {
    var u := d + rest;
    assert u[0] == d[0];
    NoPrefix(u);
    MagnitudeDecimal(d, rest);
    ParseIntMagnitude("", "", u);
    SomeOf(ParseInt(u), DigitsValue(d));
  }

  lemma ParseIntDigits(d: string)
    requires |d| >= 1 && IsDigits(d)
    ensures ParseInt(d) == Some(DigitsValue(d))
  {
    ParseIntPrefix(d, "");
    assert d + "" == d;
  }

  /**
    Number(s), restricted to decimal integer literals with an optional sign;
    None stands for NaN and for every spelling outside that set.
  */
  function ToNumber(s: string): (r: Option<int>)
    ensures r.Some? <==> (|s| >= 1 && IsDigits(s))
                         || (|s| >= 2 && (s[0] == '+' || s[0] == '-') && IsDigits(s[1..]))
    ensures |s| >= 1 && IsDigits(s) ==> r == Some(DigitsValue(s))
    ensures r.Some? && !IsDigits(s) ==> r.value == (if s[0] == '-' then -1 else 1) * DigitsValue(s[1..])
  {
    if |s| >= 2 && (s[0] == '+' || s[0] == '-') && IsDigits(s[1..]) then
      var magnitude: int := DigitsValue(s[1..]);
      Some(if s[0] == '-' then -magnitude else magnitude)
    else if |s| >= 1 && IsDigits(s) then
      Some(DigitsValue(s))
    else
      None
  }

  /** Number(String(n)) == n. */
  lemma ToNumberDecimal(n: nat)
    ensures ToNumber(NatToDecimal(n)) == Some(n)
  {
  }
}

=== FILE: timecode.dfy ===
/**
  The frame-count / timecode codec: frame-rate tags, field validation,
  frame count to timecode, timecode to frame count, and the converter that
  chooses between the two directions.

  The 29.97 rate is the exact rational 2997/100: every quantity that the
  code computes with a fractional rate is computed here in hundredths, so
  that Math.floor and Math.round become integer division.
*/
module Timecode {
  import opened Wrappers
  import opened JsString

  /** The two frame rates: 25 fps, and 29.97 fps written "30DF". */
  datatype Rate = R25 | R2997

  /** 100 times the rate: 2500 for 25 fps, 2997 for 29.97 fps. */
  function Hundredths(rate: Rate): nat
  {
    if rate == R25 then 2500 else 2997
  }

  /**
    getFrameRate: the tag compared case-insensitively with "25FPS" and
    "30DF"; None stands for the -1 of an unknown tag.
  */
  function GetFrameRate(tag: string): (r: Option<Rate>)
    ensures r == Some(R25) <==> EqualsIgnoringCase(tag, "25fps")
    ensures r == Some(R2997) <==> EqualsIgnoringCase(tag, "30df")
    ensures r.None? <==> !EqualsIgnoringCase(tag, "25fps") && !EqualsIgnoringCase(tag, "30df")
  {
    assert ToUpperCase("25fps") == "25FPS";
    assert ToUpperCase("30df") == "30DF";
    UpperCaseMatch(tag, "25fps");
    UpperCaseMatch(tag, "30df");
    if ToUpperCase(tag) == "25FPS" then Some(R25)
    else if ToUpperCase(tag) == "30DF" then Some(R2997)
    else None
  }

  /**
    The type argument of isCorrect: the callers pass only the literals
    "frames", "seconds", "minutes" and "hours".
  */
  datatype FieldKind = Frames | Seconds | Minutes | Hours

  /**
    isCorrect: the number (None for NaN) is a non-negative integer below the
    bound of its kind. For frames the bound is the rate itself, so at 29.97
    the largest accepted frame is 29; any kind other than frames and hours
    gets the bound 60.
  */
  function IsCorrect(number: Option<int>, rate: Rate, kind: FieldKind): (ok: bool)
    ensures ok <==> number.Some? && 0 <= number.value
                    && number.value < (if kind == Frames then (if rate == R25 then 25 else 30)
                                       else if kind == Hours then 100 else 60)
  {
    match number
    case None => false
    case Some(v) =>
      if kind == Frames then 0 <= v && 100 * v < Hundredths(rate)
      else if kind == Hours then 0 <= v < 100
      else 0 <= v < 60
  }

  /** Math.round(x / 100) for x >= 0: the nearest integer, a half rounded up. */
  function RoundHundredths(x: nat): (r: nat)
    ensures 100 * r <= x + 50 < 100 * r + 100
  {
    (x + 50) / 100
  }

  /** The four fields of a timecode. */
  datatype Fields = Fields(hours: nat, minutes: nat, seconds: nat, frames: nat)

  /**
    The fields toTimeCode computes for frame count n: the frames are
    round(n mod rate), the seconds, minutes and hours come from the whole
    number of seconds floor(n / rate).
  */
  function FieldsOf(rate: Rate, n: nat): Fields
  {
    var elapsed := 100 * n / Hundredths(rate);
    Fields(elapsed / 3600, (elapsed / 60) % 60, elapsed % 60, RoundHundredths(100 * n % Hundredths(rate)))
  }

  /** The separator before the frames field: ';' for 29.97 fps, ':' for 25 fps. */
  function Separator(rate: Rate): (c: char)
    ensures c == ';' <==> rate == R2997
    ensures c == ':' <==> rate == R25
  {
    match rate
    case R25 => ':'
    case R2997 => ';'
  }

  /** The timecode text: each field as ("0" + field).slice(-2). */
  function Render(f: Fields, sep: char): string
  {
    PadTwo(f.hours) + ":" + PadTwo(f.minutes) + ":" + PadTwo(f.seconds) + [sep] + PadTwo(f.frames)
  }

  /** `s` holds, at `at`, two decimal digits that spell v modulo 100. */
  predicate ShowsField(s: string, at: nat, v: nat)
  {
    at + 2 <= |s| && IsDigits(s[at..at + 2]) && DigitsValue(s[at..at + 2]) == v % 100
  }

  lemma RenderLayout(f: Fields, sep: char)
    ensures var s := Render(f, sep);
            |s| == 11 && s[2] == ':' && s[5] == ':' && s[8] == sep
            && s[..2] == PadTwo(f.hours) && s[3..5] == PadTwo(f.minutes)
            && s[6..8] == PadTwo(f.seconds) && s[9..] == PadTwo(f.frames)
  {
  }

  lemma RenderShows(f: Fields, sep: char)
    ensures var s := Render(f, sep);
            |s| == 11 && s[2] == ':' && s[5] == ':' && s[8] == sep
            && ShowsField(s, 0, f.hours) && ShowsField(s, 3, f.minutes)
            && ShowsField(s, 6, f.seconds) && ShowsField(s, 9, f.frames)
  {
    var s := Render(f, sep);
    RenderLayout(f, sep);
    assert s[0..2] == s[..2];
    assert s[9..11] == s[9..];
  }

  /**
    toTimeCode: None (the -1) exactly when the frame number is not a
    non-negative integer (None stands for NaN and non-integral numbers);
    otherwise the rendering of the frame number's fields.
  */
  function ToTimeCode(rate: Rate, frameNumber: Option<int>): (r: Option<string>)
    ensures r.Some? <==> frameNumber.Some? && frameNumber.value >= 0
  {
    if frameNumber.Some? && frameNumber.value >= 0 then
      Some(Render(FieldsOf(rate, frameNumber.value), Separator(rate)))
    else
      None
  }

  /**
    A timecode is eleven characters HH:MM:SS?FF with '?' the rate's
    separator, each field the last two digits of its value.
  */
  lemma TimeCodeLayout(rate: Rate, n: nat)
    ensures var s, f := ToTimeCode(rate, Some(n)).value, FieldsOf(rate, n);
            && |s| == 11 && s[2] == ':' && s[5] == ':'
            && (s[8] == ';' <==> rate == R2997) && (s[8] == ':' <==> rate == R25)
            && ShowsField(s, 0, f.hours) && ShowsField(s, 3, f.minutes)
            && ShowsField(s, 6, f.seconds) && ShowsField(s, 9, f.frames)
  {
    RenderShows(FieldsOf(rate, n), Separator(rate));
  }

  /** parseInt(parts[i]); reading past the end gives undefined, which parses to NaN. */
  function Component(parts: seq<string>, i: nat): Option<int>
  {
    if i < |parts| then ParseInt(parts[i]) else None
  }

  /**
    toFrameCount25fps: the first four ':'-separated components as hours,
    minutes, seconds and frames; f + 25 s + 1500 m + 90000 h when all four
    are in range, None (the -1) otherwise.
  */
  function ToFrameCount25fps(timeCode: string): (r: Option<nat>)
    ensures r.Some? ==> |Split(timeCode, ':')| >= 4 && r.value < 9000000
  {
    var parts := Split(timeCode, ':');
    var frames := Component(parts, 3);
    var seconds := Component(parts, 2);
    var minutes := Component(parts, 1);
    var hours := Component(parts, 0);
    if IsCorrect(frames, R25, Frames) && IsCorrect(seconds, R25, Seconds)
       && IsCorrect(minutes, R25, Minutes) && IsCorrect(hours, R25, Hours)
    then
      Some(frames.value + seconds.value * 25 + minutes.value * 25 * 60 + hours.value * 25 * 60 * 60)
    else
      None
  }

  /**
    toFrameCount30DF: hours, minutes and seconds from the ':'-separated
    components (the seconds read by parseInt from "SS;FF"), frames from the
    text after the first ';'; round(f + 29.97 (s + 60 m + 3600 h)) when all
    four are in range, None (the -1) otherwise.
  */
  function ToFrameCount30DF(timeCode: string): (r: Option<nat>)
    ensures r.Some? ==> |Split(timeCode, ';')| >= 2 && |Split(timeCode, ':')| >= 3 && r.value < 10789200
  {
    var parts := Split(timeCode, ':');
    var frames := Component(Split(timeCode, ';'), 1);
    var seconds := Component(parts, 2);
    var minutes := Component(parts, 1);
    var hours := Component(parts, 0);
    if IsCorrect(frames, R2997, Frames) && IsCorrect(seconds, R2997, Seconds)
       && IsCorrect(minutes, R2997, Minutes) && IsCorrect(hours, R2997, Hours)
    then
      var f, s, m, h := frames.value, seconds.value, minutes.value, hours.value;
      Some(RoundHundredths(100 * f + 2997 * (s + 60 * m + 3600 * h)))
    else
      None
  }

  /** toFrameCount: dispatch on the rate. */
  function ToFrameCount(rate: Rate, timeCode: string): (r: Option<nat>)
    ensures r.Some? ==> r.value < (if rate == R25 then 9000000 else 10789200)
  {
    match rate
    case R25 => ToFrameCount25fps(timeCode)
    case R2997 => ToFrameCount30DF(timeCode)
  }

  /** What convert returns: a timecode, a frame count, or "WrongInput". */
  datatype Output = TimeCode(text: string) | FrameCount(count: nat) | WrongInput

  /** The second space-separated token of a line, the value to convert. */
  function ValueToken(input: string): (v: string)
    requires ' ' in input
    ensures var rest := input[|RateTag(input)| + 1..];
            ' ' !in v && v <= rest && (|v| < |rest| ==> rest[|v|] == ' ')
  {
    SplitPieces(input, ' ');
    SplitHead(input, ' ');
    SplitHead(input[|RateTag(input)| + 1..], ' ');
    Split(input, ' ')[1]
  }

  /** The rate named by the first token of a line: the text before the first space. */
  function RateTag(input: string): (t: string)
    ensures ' ' !in t && t <= input
    ensures |t| < |input| <==> ' ' in input
    ensures |t| < |input| ==> input[|t|] == ' '
  {
    SplitPieces(input, ' ');
    SplitHead(input, ' ');
    Split(input, ' ')[0]
  }

  /**
    convert: format the value when Number(value) is a non-negative integer,
    otherwise parse it as a timecode; "WrongInput" only when both fail.
  */
  function Convert(input: string): (r: Output)
    requires ' ' in input
    requires GetFrameRate(RateTag(input)).Some?
    ensures var rate, value := GetFrameRate(RateTag(input)).value, ValueToken(input);
            && (r.TimeCode? <==> ToNumber(value).Some? && ToNumber(value).value >= 0)
            && (r.TimeCode? ==> r.text == ToTimeCode(rate, ToNumber(value)).value)
            && (|value| >= 1 && IsDigits(value) ==> r == TimeCode(ToTimeCode(rate, Some(DigitsValue(value))).value))
            && (r.FrameCount? ==> ToFrameCount(rate, value) == Some(r.count))
            && (r.WrongInput? <==> ToTimeCode(rate, ToNumber(value)).None? && ToFrameCount(rate, value).None?)
  {
    var inputSplit := Split(input, ' ');
    SplitPieces(input, ' ');
    var rate := GetFrameRate(inputSplit[0]).value;
    var value := inputSplit[1];
    var output := ToTimeCode(rate, ToNumber(value));
    if output.None? then
      match ToFrameCount(rate, value)
      case None => WrongInput
      case Some(count) => FrameCount(count)
    else
      TimeCode(output.value)
  }
}

=== FILE: timecode_examples.dfy ===
/**
  The worked values of the codec: formatting a frame count gives the text
  shown, and parsing that text gives the count back, or refuses it.
*/
module TimecodeExamples {
  import opened Wrappers
  import opened JsString
  import opened Timecode
  import opened TimecodeProps

  lemma Render90029()
    ensures Render(Fields(1, 0, 1, 4), ':') == "01:00:01:04"
  {
    assert PadTwo(1) == "01";
    assert PadTwo(0) == "00";
    assert PadTwo(4) == "04";
  }

  /** Frame 90029 at 25 fps is "01:00:01:04", and that text parses back to 90029. */
  lemma Example90029()
    ensures ToTimeCode(R25, Some(90029)) == Some("01:00:01:04")
    ensures ToFrameCount25fps("01:00:01:04") == Some(90029)
  {
    assert FieldsOf(R25, 90029) == Fields(1, 0, 1, 4);
    Render90029();
    RoundTrip25(90029);
  }

  lemma Render8999999()
    ensures Render(Fields(99, 59, 59, 24), ':') == "99:59:59:24"
  {
    assert PadTwo(99) == "99";
    assert PadTwo(59) == "59";
    assert PadTwo(24) == "24";
  }

  /** The last frame below 100 hours at 25 fps is "99:59:59:24", which parses back. */
  lemma Example8999999()
    ensures ToTimeCode(R25, Some(8999999)) == Some("99:59:59:24")
    ensures ToFrameCount25fps("99:59:59:24") == Some(8999999)
  {
    assert FieldsOf(R25, 8999999) == Fields(99, 59, 59, 24);
    Render8999999();
    RoundTrip25(8999999);
  }

  lemma Fields108108()
    ensures FieldsOf(R2997, 108108) == Fields(1, 0, 7, 6)
    ensures (100 * 108108 % 2997) % 100 == 21
  {
  }

  lemma Render108108()
    ensures Render(Fields(1, 0, 7, 6), ';') == "01:00:07;06"
  {
    assert PadTwo(1) == "01";
    assert PadTwo(0) == "00";
    assert PadTwo(7) == "07";
    assert PadTwo(6) == "06";
  }

  /** Frame 108108 at 29.97 fps is "01:00:07;06", and that text parses back to 108108. */
  lemma Example108108()
    ensures ToTimeCode(R2997, Some(108108)) == Some("01:00:07;06")
    ensures ToFrameCount30DF("01:00:07;06") == Some(108108)
  {
    Fields108108();
    Render108108();
    RoundTripBelowDF(108108);
  }

  /**
    Frame 10,897,308 at 29.97 fps is 100 hours past frame 108108: it prints
    as "01:00:07;06" too, and that text parses back to 108108.
  */
  lemma Example10897308()
    ensures ToTimeCode(R2997, Some(10897308)) == Some("01:00:07;06")
    ensures ToFrameCount30DF(ToTimeCode(R2997, Some(10897308)).value) == Some(108108)
  {
    DivModOf(10897308, 10789200, 1, 108108);
    TimeCodeWrapDF(10897308);
    Example108108();
  }

  lemma Render539()
    ensures Render(Fields(0, 0, 17, 30), ';') == "00:00:17;30"
  {
    assert PadTwo(0) == "00";
    assert PadTwo(17) == "17";
    assert PadTwo(30) == "30";
  }

  /**
    Frame 539 at 29.97 fps is "00:00:17;30": the frames field reaches 30,
    and the parser refuses the text the formatter produced.
  */
  lemma Example539()
    ensures ToTimeCode(R2997, Some(539)) == Some("00:00:17;30")
    ensures ToFrameCount30DF("00:00:17;30").None?
  {
    FramesReachThirty();
    Render539();
    RoundTripBelowDF(539);
  }

  /** parseInt reads "0x1F" as hexadecimal 31, and "0x" alone as NaN. */
  lemma ExampleHex()
    ensures ParseInt("0x1F") == Some(31)
    ensures ParseInt("0x").None?
  {
    ParseIntHex("", "", 'x', "1F", "");
    assert "" + "" + ['0', 'x'] + "1F" + "" == "0x1F";
    assert HexValue("1F") == 31 by {
      assert "1F"[..1] == "1";
    }
    ParseIntHex("", "", 'x', "", "");
    assert "" + "" + ['0', 'x'] + "" + "" == "0x";
  }
}

=== FILE: timecode_props.dfy ===
/**
  What the codec promises across its operations: the fields of a formatted
  timecode, the 25 fps round trip in both directions, and the 29.97 fps
  round trip up to one frame.
*/
module TimecodeProps {
  import opened Wrappers
  import opened JsString
  import opened Timecode

  // ---------------------------------------------------------------- arithmetic

  lemma {:induction false} MulAtLeast(d: nat, x: nat)
    requires x >= 1
    ensures d * x >= d
  {
    if x > 1 {
      MulAtLeast(d, x - 1);
      assert d * x == d * (x - 1) + d;
    }
  }

  /** Quotient and remainder are unique. */
  lemma DivModOf(n: nat, d: nat, q: nat, r: nat)
    requires r < d && n == d * q + r
    ensures n / d == q && n % d == r
  {
    var k, t := n / d, n % d;
    assert n == d * k + t;
    if k > q {
      assert d * k == d * q + d * (k - q);
      MulAtLeast(d, k - q);
    } else if k < q {
      assert d * q == d * k + d * (q - k);
      MulAtLeast(d, q - k);
    }
  }

  lemma SecondsToHours(e: nat)
    ensures e / 60 / 60 == e / 3600
    ensures e == 3600 * (e / 3600) + 60 * ((e / 60) % 60) + e % 60
  {
  }

  /**
    At 25 fps the fields are n mod 25, (n div 25) mod 60, (n div 1500) mod 60
    and n div 90000.
  */
  lemma {:induction false} Fields25(n: nat)
    ensures FieldsOf(R25, n) == Fields(n / 90000, (n / 1500) % 60, (n / 25) % 60, n % 25)
  {
    var q := n / 25;
    assert 100 * n == 2500 * q + 100 * (n % 25);
    assert 100 * n / 2500 == q;
    assert 100 * n % 2500 == 100 * (n % 25);
    assert q / 3600 == n / 90000;
    assert q / 60 == n / 1500;
  }

  /**
    The fields stay within their bounds, except that the 29.97 fps frames
    field can reach 30; the hours field fits two digits exactly below
    9,000,000 frames at 25 fps and below 10,789,200 frames at 29.97 fps.
  */
  lemma FieldBounds(rate: Rate, n: nat)
    ensures var f := FieldsOf(rate, n);
            && f.minutes < 60 && f.seconds < 60 && f.frames <= 30
            && (rate == R25 ==> f.frames < 25)
            && (f.hours < 100 <==> n < (if rate == R25 then 9000000 else 10789200))
  {
    if rate == R25 {
      Fields25(n);
    }
  }

  /** A 29.97 fps frames field of 30: frame 539 is "00:00:17;30". */
  lemma FramesReachThirty()
    ensures FieldsOf(R2997, 539) == Fields(0, 0, 17, 30)
  {
  }

  /** At 25 fps the fields of f + 25 s + 1500 m + 90000 h are h, m, s, f. */
  lemma Decompose25(h: nat, m: nat, s: nat, f: nat)
    requires m < 60 && s < 60 && f < 25
    ensures FieldsOf(R25, f + 25 * s + 1500 * m + 90000 * h) == Fields(h, m, s, f)
  {
    var n := f + 25 * s + 1500 * m + 90000 * h;
    Fields25(n);
    DivModOf(n, 25, s + 60 * m + 3600 * h, f);
    DivModOf(s + 60 * m + 3600 * h, 60, m + 60 * h, s);
    DivModOf(n, 1500, m + 60 * h, f + 25 * s);
    DivModOf(m + 60 * h, 60, h, m);
    DivModOf(n, 90000, h, f + 25 * s + 1500 * m);
  }

  /** n mod 9,000,000 in terms of its 25 fps fields, hours taken modulo 100. */
  lemma MixedRadix25(n: nat)
    ensures n % 25 + 25 * ((n / 25) % 60) + 1500 * ((n / 1500) % 60) + 90000 * ((n / 90000) % 100)
            == n % 9000000
  {
    var q1, r0 := n / 25, n % 25;
    var q2, r1 := q1 / 60, q1 % 60;
    var q3, r2 := q2 / 60, q2 % 60;
    var q4, r3 := q3 / 100, q3 % 100;
    assert n == 1500 * q2 + (25 * r1 + r0);
    DivModOf(n, 1500, q2, 25 * r1 + r0);
    assert n == 90000 * q3 + (1500 * r2 + 25 * r1 + r0);
    DivModOf(n, 90000, q3, 1500 * r2 + 25 * r1 + r0);
    assert n == 9000000 * q4 + (90000 * r3 + 1500 * r2 + 25 * r1 + r0);
    DivModOf(n, 9000000, q4, 90000 * r3 + 1500 * r2 + 25 * r1 + r0);
  }

  // ---------------------------------------------------------------- splitting the text

  lemma PadTwoHasNo(n: nat, c: char)
    requires !IsDigit(c)
    ensures c !in PadTwo(n)
  {
    var p := PadTwo(n);
    assert forall i :: 0 <= i < |p| ==> p[i] != c;
  }

  /** parseInt reads a padded field back modulo 100. */
  lemma ParsePadTwo(x: nat)
    ensures ParseInt(PadTwo(x)) == Some(x % 100)
  {
    ParseIntDigits(PadTwo(x));
  }

  /** Four separator-free pieces joined by a separator split back into those pieces. */
  lemma SplitFour(a: string, b: string, c: string, d: string, sep: char)
    requires sep !in a && sep !in b && sep !in c && sep !in d
    ensures var parts := Split(a + [sep] + b + [sep] + c + [sep] + d, sep);
            |parts| == 4 && parts[0] == a && parts[1] == b && parts[2] == c && parts[3] == d
  {
    SplitAround(a + [sep] + b + [sep] + c, d, sep);
    SplitAround(a + [sep] + b, c, sep);
    SplitAround(a, b, sep);
    SplitWhole(a, sep);
    SplitWhole(b, sep);
    SplitWhole(c, sep);
    SplitWhole(d, sep);
  }

  /** A 25 fps timecode splits on ':' into its four fields. */
  lemma SplitRender25(f: Fields)
    ensures var parts := Split(Render(f, ':'), ':');
            && |parts| == 4 && parts[0] == PadTwo(f.hours) && parts[1] == PadTwo(f.minutes)
            && parts[2] == PadTwo(f.seconds) && parts[3] == PadTwo(f.frames)
  {
    PadTwoHasNo(f.hours, ':');
    PadTwoHasNo(f.minutes, ':');
    PadTwoHasNo(f.seconds, ':');
    PadTwoHasNo(f.frames, ':');
    SplitFour(PadTwo(f.hours), PadTwo(f.minutes), PadTwo(f.seconds), PadTwo(f.frames), ':');
  }

  /** Components that are padded fields read back as the fields modulo 100. */
  lemma ComponentsOfPadded(parts: seq<string>, h: nat, m: nat, s: nat, f: nat)
    requires |parts| == 4 && parts[0] == PadTwo(h) && parts[1] == PadTwo(m)
    requires parts[2] == PadTwo(s) && parts[3] == PadTwo(f)
    ensures Component(parts, 0) == Some(h % 100) && Component(parts, 1) == Some(m % 100)
    ensures Component(parts, 2) == Some(s % 100) && Component(parts, 3) == Some(f % 100)
  {
    ParsePadTwo(h);
    ParsePadTwo(m);
    ParsePadTwo(s);
    ParsePadTwo(f);
  }

  /**
    A 29.97 fps timecode splits on ':' into hours, minutes and "SS;FF", and
    on ';' into "HH:MM:SS" and the frames.
  */
  lemma SplitRenderDF(f: Fields)
    ensures var parts := Split(Render(f, ';'), ':');
            && |parts| == 3 && parts[0] == PadTwo(f.hours) && parts[1] == PadTwo(f.minutes)
            && parts[2] == PadTwo(f.seconds) + ";" + PadTwo(f.frames)
    ensures var parts := Split(Render(f, ';'), ';');
            && |parts| == 2 && parts[1] == PadTwo(f.frames)
  {
    var h, m, s, fr := PadTwo(f.hours), PadTwo(f.minutes), PadTwo(f.seconds), PadTwo(f.frames);
    PadTwoHasNo(f.hours, ':');
    PadTwoHasNo(f.minutes, ':');
    PadTwoHasNo(f.seconds, ':');
    PadTwoHasNo(f.frames, ':');
    PadTwoHasNo(f.hours, ';');
    PadTwoHasNo(f.minutes, ';');
    PadTwoHasNo(f.seconds, ';');
    PadTwoHasNo(f.frames, ';');
    var colon := [h, m, s + ";" + fr];
    assert ':' !in s + ";" + fr;
    assert Join(colon, ':') == Render(f, ';') by {
      var c := s + ";" + fr;
      assert colon[1..] == [m, c] && [m, c][1..] == [c];
      assert Join([c], ':') == c;
      assert Join([m, c], ':') == m + [':'] + c;
      assert Join(colon, ':') == h + [':'] + (m + [':'] + c);
    }
    SplitJoin(colon, ':');
    var semi := [h + ":" + m + ":" + s, fr];
    assert ';' !in h + ":" + m + ":" + s;
    assert Join(semi, ';') == Render(f, ';') by {
      assert semi[1..] == [fr];
      assert Join([fr], ';') == fr;
    }
    SplitJoin(semi, ';');
  }

  // ---------------------------------------------------------------- 25 fps

  /** The first four ':'-separated components of a text read as h, m, s and f. */
  predicate Reads25(timeCode: string, h: int, m: int, s: int, f: int)
  {
    var parts := Split(timeCode, ':');
    && Component(parts, 0) == Some(h) && Component(parts, 1) == Some(m)
    && Component(parts, 2) == Some(s) && Component(parts, 3) == Some(f)
  }

  /** toFrameCount25fps on a text whose four components read as in-range fields. */
  lemma Parse25Of(timeCode: string, h: int, m: int, s: int, f: int)
    requires Reads25(timeCode, h, m, s, f)
    requires 0 <= h < 100 && 0 <= m < 60 && 0 <= s < 60 && 0 <= f < 25
    ensures ToFrameCount25fps(timeCode) == Some(f + 25 * s + 1500 * m + 90000 * h)
  {
  }

  /** Hours, minutes, seconds and frames below 100 are their own value modulo 100. */
  lemma BelowHundred(x: nat)
    ensures x % 100 < 100
    ensures x < 100 ==> x % 100 == x
  {
  }

  /** The components of a 25 fps timecode read back as its fields, hours modulo 100. */
  lemma ComponentsOfRender25(f: Fields)
    requires f.minutes < 60 && f.seconds < 60 && f.frames < 25
    ensures Reads25(Render(f, ':'), f.hours % 100, f.minutes, f.seconds, f.frames)
  {
    BelowHundred(f.minutes);
    BelowHundred(f.seconds);
    BelowHundred(f.frames);
    SplitRender25(f);
    ComponentsOfPadded(Split(Render(f, ':'), ':'), f.hours, f.minutes, f.seconds, f.frames);
  }

  /** Parsing a 25 fps timecode whose fields are in range gives its frame count. */
  lemma ParseRender25(f: Fields)
    requires f.minutes < 60 && f.seconds < 60 && f.frames < 25
    ensures ToFrameCount25fps(Render(f, ':'))
            == Some(f.frames + 25 * f.seconds + 1500 * f.minutes + 90000 * (f.hours % 100))
  {
    BelowHundred(f.hours);
    ComponentsOfRender25(f);
    Parse25Of(Render(f, ':'), f.hours % 100, f.minutes, f.seconds, f.frames);
  }

  /** ParseRender25, with the count named by the caller. */
  lemma ParseRender25Is(f: Fields, v: nat)
    requires f.minutes < 60 && f.seconds < 60 && f.frames < 25
    requires v == f.frames + 25 * f.seconds + 1500 * f.minutes + 90000 * (f.hours % 100)
    ensures ToFrameCount25fps(Render(f, ':')) == Some(v)
  {
    ParseRender25(f);
  }

  /**
    Format then parse at 25 fps gives the frame count back below 9,000,000
    frames (100 hours) and the count modulo 9,000,000 beyond, because only
    the last two digits of the hours are printed.
  */
  lemma RoundTrip25(n: nat)
    ensures ToTimeCode(R25, Some(n)).Some?
    ensures ToFrameCount25fps(ToTimeCode(R25, Some(n)).value) == Some(n % 9000000)
    ensures n < 9000000 ==> ToFrameCount25fps(ToTimeCode(R25, Some(n)).value) == Some(n)
  {
    TimeCodeText25(n);
    ParseFields25(n);
  }

  /** The rendered 25 fps fields of n parse back to n modulo 9,000,000. */
  lemma ParseFields25(n: nat)
    ensures ToFrameCount25fps(Render(FieldsOf(R25, n), ':')) == Some(n % 9000000)
    ensures n < 9000000 ==> n % 9000000 == n
  {
    Count25OfFields(n);
    ParseRender25Is(FieldsOf(R25, n), n % 9000000);
  }

  /** The 25 fps timecode of n is the rendering of its fields with ':' throughout. */
  lemma TimeCodeText25(n: nat)
    ensures ToTimeCode(R25, Some(n)) == Some(Render(FieldsOf(R25, n), ':'))
  {
  }

  /** The 25 fps fields of n are in range and weigh back to n modulo 9,000,000. */
  lemma Count25OfFields(n: nat)
    ensures var f := FieldsOf(R25, n);
            && f.minutes < 60 && f.seconds < 60 && f.frames < 25
            && f.frames + 25 * f.seconds + 1500 * f.minutes + 90000 * (f.hours % 100) == n % 9000000
    ensures n < 9000000 ==> n % 9000000 == n
  {
    Fields25(n);
    MixedRadix25(n);
    if n < 9000000 {
      DivModOf(n, 9000000, 0, n);
    }
  }

  /**
    Parse then format at 25 fps: the count of a timecode that parses has as
    its fields the four components that were read.
  */
  lemma ParseThenFields25(timeCode: string)
    requires ToFrameCount25fps(timeCode).Some?
    ensures var parts := Split(timeCode, ':');
            FieldsOf(R25, ToFrameCount25fps(timeCode).value)
              == Fields(Component(parts, 0).value, Component(parts, 1).value,
                        Component(parts, 2).value, Component(parts, 3).value)
  {
    var parts := Split(timeCode, ':');
    Parsed25(timeCode);
    Decompose25(Component(parts, 0).value, Component(parts, 1).value,
                Component(parts, 2).value, Component(parts, 3).value);
  }

  /** Parse, format and parse again at 25 fps gives the same count. */
  lemma ParseThenFormat25(timeCode: string)
    requires ToFrameCount25fps(timeCode).Some?
    ensures var v := ToFrameCount25fps(timeCode).value;
            ToFrameCount25fps(ToTimeCode(R25, Some(v)).value) == Some(v)
  {
    RoundTrip25(ToFrameCount25fps(timeCode).value);
  }

  /** A 25 fps timecode that parses has four in-range components weighing to its count. */
  lemma Parsed25(timeCode: string)
    requires ToFrameCount25fps(timeCode).Some?
    ensures var parts := Split(timeCode, ':');
            var h, m, s, f := Component(parts, 0), Component(parts, 1), Component(parts, 2), Component(parts, 3);
            && h.Some? && m.Some? && s.Some? && f.Some?
            && 0 <= h.value < 100 && 0 <= m.value < 60 && 0 <= s.value < 60 && 0 <= f.value < 25
            && ToFrameCount25fps(timeCode).value == f.value + 25 * s.value + 1500 * m.value + 90000 * h.value
  {
  }

  /** Components after the fourth are ignored. */
  lemma ExtraComponents25(timeCode: string, extra: string)
    requires |Split(timeCode, ':')| >= 4
    ensures ToFrameCount25fps(timeCode + ":" + extra) == ToFrameCount25fps(timeCode)
  {
    SplitAround(timeCode, extra, ':');
    var q, r := Split(timeCode, ':'), Split(extra, ':');
    ComponentOfPrefix(q, r, 0);
    ComponentOfPrefix(q, r, 1);
    ComponentOfPrefix(q, r, 2);
    ComponentOfPrefix(q, r, 3);
    SameComponents25(timeCode + ":" + extra, timeCode);
  }

  /** Components are read by position, so appending parts keeps the earlier ones. */
  lemma ComponentOfPrefix(q: seq<string>, r: seq<string>, i: nat)
    requires i < |q|
    ensures Component(q + r, i) == Component(q, i)
  {
  }

  /** toFrameCount25fps depends only on the first four components. */
  lemma SameComponents25(a: string, b: string)
    requires var p, q := Split(a, ':'), Split(b, ':');
             && Component(p, 0) == Component(q, 0) && Component(p, 1) == Component(q, 1)
             && Component(p, 2) == Component(q, 2) && Component(p, 3) == Component(q, 3)
    ensures ToFrameCount25fps(a) == ToFrameCount25fps(b)
  {
  }

  /** Fewer than four ':'-separated components never parse at 25 fps. */
  lemma FewComponents25(timeCode: string)
    requires |Split(timeCode, ':')| < 4
    ensures ToFrameCount25fps(timeCode).None?
  {
  }

  // ---------------------------------------------------------------- 29.97 fps

  /** toFrameCount30DF on a text whose four components read as in-range fields, frames aside. */
  lemma Parse30DFOf(timeCode: string, h: int, m: int, s: int, f: int)
    requires var parts := Split(timeCode, ':');
             && Component(parts, 0) == Some(h) && Component(parts, 1) == Some(m)
             && Component(parts, 2) == Some(s) && Component(Split(timeCode, ';'), 1) == Some(f)
    requires 0 <= h < 100 && 0 <= m < 60 && 0 <= s < 60 && 0 <= f
    ensures ToFrameCount30DF(timeCode)
            == if f < 30 then Some(RoundHundredths(100 * f + 2997 * (s + 60 * m + 3600 * h))) else None
  {
    var parts := Split(timeCode, ':');
    var frames := Component(Split(timeCode, ';'), 1);
    assert IsCorrect(Component(parts, 2), R2997, Seconds) && IsCorrect(Component(parts, 1), R2997, Minutes)
           && IsCorrect(Component(parts, 0), R2997, Hours);
    assert IsCorrect(frames, R2997, Frames) <==> f < 30;
  }

  /**
    A 29.97 fps result means that hours, minutes and seconds parsed in range
    from the ':' components, the frames after the first ';' parsed below 30,
    and the count is the rounded weighted sum: the converse of Parse30DFOf.
  */
  lemma Parsed30DF(timeCode: string)
    requires ToFrameCount30DF(timeCode).Some?
    ensures var parts := Split(timeCode, ':');
            var h, m, s, f := Component(parts, 0), Component(parts, 1), Component(parts, 2),
                              Component(Split(timeCode, ';'), 1);
            && h.Some? && m.Some? && s.Some? && f.Some?
            && 0 <= h.value < 100 && 0 <= m.value < 60 && 0 <= s.value < 60 && 0 <= f.value < 30
            && ToFrameCount30DF(timeCode).value
               == RoundHundredths(100 * f.value + 2997 * (s.value + 60 * m.value + 3600 * h.value))
  {
  }

  /** parseInt reads "SS;FF" as SS. */
  lemma ParseSecondsField(s: nat, f: nat)
    ensures ParseInt(PadTwo(s) + ";" + PadTwo(f)) == Some(s % 100)
  {
    var seconds, rest := PadTwo(s), ";" + PadTwo(f);
    assert rest[0] == ';';
    ParseIntPrefix(seconds, rest);
    assert seconds + ";" + PadTwo(f) == seconds + rest;
  }

  /** The components of a 29.97 fps timecode read back as its fields modulo 100. */
  lemma ComponentsOfRenderDF(f: Fields)
    ensures var parts := Split(Render(f, ';'), ':');
            && Component(parts, 0) == Some(f.hours % 100) && Component(parts, 1) == Some(f.minutes % 100)
            && Component(parts, 2) == Some(f.seconds % 100)
            && Component(Split(Render(f, ';'), ';'), 1) == Some(f.frames % 100)
  {
    SplitRenderDF(f);
    ParsePadTwo(f.hours);
    ParsePadTwo(f.minutes);
    ParseSecondsField(f.seconds, f.frames);
    ParsePadTwo(f.frames);
  }

  /** Parsing a 29.97 fps timecode whose fields are in range. */
  lemma ParseRenderDF(f: Fields)
    requires f.hours < 100 && f.minutes < 60 && f.seconds < 60 && f.frames <= 30
    ensures ToFrameCount30DF(Render(f, ';'))
            == if f.frames < 30
               then Some(RoundHundredths(100 * f.frames + 2997 * (f.seconds + 60 * f.minutes + 3600 * f.hours)))
               else None
  {
    BelowHundred(f.hours);
    BelowHundred(f.minutes);
    BelowHundred(f.seconds);
    BelowHundred(f.frames);
    ComponentsOfRenderDF(f);
    Parse30DFOf(Render(f, ';'), f.hours, f.minutes, f.seconds, f.frames);
  }

  /** The 29.97 fps timecode of n is the rendering of its fields with ';' before the frames. */
  lemma TimeCodeTextDF(n: nat)
    ensures ToTimeCode(R2997, Some(n)) == Some(Render(FieldsOf(R2997, n), ';'))
  {
  }

  /**
    Weighing the 29.97 fps fields of n back: the whole seconds give 29.97
    times themselves, the rounded remainder adds back what was rounded, so
    the result is n, or n + 1 when the remainder in hundredths of a frame
    ends in exactly one half.
  */
  lemma CountDFOfFields(n: nat)
    requires n < 10789200
    ensures var f := FieldsOf(R2997, n);
            && f.hours < 100 && f.minutes < 60 && f.seconds < 60 && f.frames <= 30
            && var v := RoundHundredths(100 * f.frames + 2997 * (f.seconds + 60 * f.minutes + 3600 * f.hours));
               && n <= v <= n + 1 && (v == n <==> (100 * n % 2997) % 100 != 50)
  {
    var f := FieldsOf(R2997, n);
    FieldBounds(R2997, n);
    var e := 100 * n / 2997;
    SecondsToHours(e);
    assert f.seconds + 60 * f.minutes + 3600 * f.hours == e;
    var rho := 100 * n % 2997;
    assert 100 * n == 2997 * e + rho;
    RoundRemainder(n, e, rho);
  }

  /**
    With 100 n = 2997 e + rho, rounding rho to whole frames and weighing
    back loses the sub-frame part, which brings the count up by one exactly
    when that part is one half.
  */
  lemma RoundRemainder(n: nat, e: nat, rho: nat)
    requires 100 * n == 2997 * e + rho
    ensures var v := RoundHundredths(100 * RoundHundredths(rho) + 2997 * e);
            n <= v <= n + 1 && (v == n <==> rho % 100 != 50)
  {
    var a, b := rho / 100, rho % 100;
    assert rho == 100 * a + b;
    var fr := RoundHundredths(rho);
    assert fr == a + (if b >= 50 then 1 else 0);
    var x := 100 * fr + 2997 * e;
    assert x + 50 == 100 * n + (if b >= 50 then 150 else 50) - b;
  }

  /**
    Format then parse at 29.97 fps, below 100 hours: the text is refused
    exactly when its frames field is 30; otherwise the count comes back as n,
    or as n + 1 when n mod 29.97 is a whole number plus one half, which both
    directions round up.
  */
  lemma RoundTripBelowDF(n: nat)
    requires n < 10789200
    ensures ToTimeCode(R2997, Some(n)).Some?
    ensures var r := ToFrameCount30DF(ToTimeCode(R2997, Some(n)).value);
            && (r.None? <==> FieldsOf(R2997, n).frames == 30)
            && (r.Some? ==> n <= r.value <= n + 1)
            && (r.Some? ==> (r.value == n <==> (100 * n % 2997) % 100 != 50))
  {
    TimeCodeTextDF(n);
    CountDFOfFields(n);
    ParseRenderDF(FieldsOf(R2997, n));
  }

  /**
    Adding 100 hours (10,789,200 frames, 360,000 seconds) k times to a
    29.97 fps count raises its hours field by 100 k and keeps the other
    fields and the remainder in hundredths of a frame.
  */
  lemma FieldsWrapDF(m: nat, k: nat)
    ensures var f, g := FieldsOf(R2997, m), FieldsOf(R2997, m + 10789200 * k);
            g == Fields(f.hours + 100 * k, f.minutes, f.seconds, f.frames)
    ensures 100 * (m + 10789200 * k) % 2997 == 100 * m % 2997
  {
    var n := m + 10789200 * k;
    var e, rho := 100 * m / 2997, 100 * m % 2997;
    var big := e + 360000 * k;
    assert 100 * n == 2997 * big + rho;
    DivModOf(100 * n, 2997, big, rho);
    DivModOf(big, 3600, e / 3600 + 100 * k, e % 3600);
    DivModOf(big, 60, e / 60 + 6000 * k, e % 60);
    DivModOf(e / 60 + 6000 * k, 60, e / 60 / 60 + 100 * k, (e / 60) % 60);
  }

  /** A field printed with two digits does not see multiples of 100. */
  lemma PadTwoWrap(h: nat, k: nat)
    ensures PadTwo(h + 100 * k) == PadTwo(h)
  {
    DivModOf(h + 100 * k, 10, h / 10 + 10 * k, h % 10);
    DivModOf(h / 10 + 10 * k, 10, h / 10 / 10 + k, h / 10 % 10);
  }

  /** The 29.97 fps timecode of n is that of n mod 10,789,200: the hours wrap at 100. */
  lemma TimeCodeWrapDF(n: nat)
    ensures ToTimeCode(R2997, Some(n)) == ToTimeCode(R2997, Some(n % 10789200))
    ensures FieldsOf(R2997, n).frames == FieldsOf(R2997, n % 10789200).frames
    ensures 100 * n % 2997 == 100 * (n % 10789200) % 2997
  {
    var m, k := n % 10789200, n / 10789200;
    assert n == m + 10789200 * k;
    FieldsWrapDF(m, k);
    var f := FieldsOf(R2997, m);
    PadTwoWrap(f.hours, k);
    TimeCodeTextDF(n);
    TimeCodeTextDF(m);
  }

  /**
    Format then parse at 29.97 fps, for every count: the text is refused
    exactly when its frames field is 30; otherwise the count comes back as
    n mod 10,789,200, or one more at an exact half, because only the last
    two digits of the hours are printed.
  */
  lemma RoundTripDF(n: nat)
    ensures ToTimeCode(R2997, Some(n)).Some?
    ensures var m, r := n % 10789200, ToFrameCount30DF(ToTimeCode(R2997, Some(n)).value);
            && (r.None? <==> FieldsOf(R2997, n).frames == 30)
            && (r.Some? ==> m <= r.value <= m + 1)
            && (r.Some? ==> (r.value == m <==> (100 * n % 2997) % 100 != 50))
  {
    TimeCodeWrapDF(n);
    RoundTripBelowDF(n % 10789200);
  }

  /** A 29.97 fps timecode without ';' never parses. */
  lemma NoSemicolonDF(timeCode: string)
    requires ';' !in timeCode
    ensures ToFrameCount30DF(timeCode).None?
  {
    SplitPieces(timeCode, ';');
  }
}

=== FILE: wrappers.dfy ===
/** The Option datatype used for the codec's "-1 on error" returns and for NaN. */
module Wrappers {
  datatype Option<+T> = None | Some(value: T)
}
